=== FILE: README.md ===
# Beat Saber WebADB downgrader: device bridge and patch pipeline

A Dafny model of the sequential core of the downgrader. The model covers:

- the parsers that read the installed game's version, APK path and APK size from the headset's shell output;
- the resolver that picks the compatible downgrade patches out of the version manifest;
- the `patchAndInstall` launch decision;
- the worker-message handler that streams the patched APK to disk;
- the chunk accumulation of `readFile` and `runCommand`;
- the lazily memoised resource chain of `QuestAdbUtils` (manager, device, connection, credential store, transport, bridge, sync) together with its lenient `init`.

Every effect (the WebUSB prompt, the bridge handshake, the sync service, the shell, `fetch`) is an answer from outside the model. The shell is a `Shell` function from a command line to its output. The download is a `Fetch` function from a URL to bytes. The USB and bridge libraries are a `World` record. A repeated question to the `World` always gets the same answer.

Modules, one per concern:

| module | file | models |
|---|---|---|
| `Wrappers` | wrappers.dfy | `Option` (a value or `undefined`) and `Result` (a promise that fulfils or rejects) |
| `Text` | text.dfy | the JavaScript white-space class, `indexOf`/`includes`, `replace` with a string pattern and a replacement without `$`, `trim`, and string truthiness |
| `Numbers` | numbers.dfy | `parseInt` without radix, and the decimal text of an integral `Number` |
| `Chunks` | chunks.dfy | the chunk concatenation of `readFile` and `runCommand` |
| `DeviceOutput` | device_output.dfy | `getInstalledVersion`, `getApkPath`, `getBytesOfInstalledApk` |
| `Resolver` | resolver.dfy | the manifest filter in `getCompatibleDowngrades` |
| `Consumer` | consumer.dfy | `worker.onmessage` as a transition function, and its fold over a message stream |
| `Pipeline` | pipeline.dfy | `patchAndInstall` up to the worker start |
| `Session` | session.dfy | the memoised getters, `init`, and the session-level `readFile` / `runCommand` |

Behaviour kept as the code has it:

- `getApkPath` accepts `package:` anywhere in the output, removes only its first occurrence, then trims.
- `if (apkPath)` treats an empty path as absent, so `du` never runs for it.
- A `du` line that `parseInt` cannot read gives `NaN`, which matches no manifest entry.
- Before the manifest has loaded, `dgVersions` is `[]`, and `dgVersions.versions.filter` throws. `GetCompatibleDowngrades` rejects in that case.
- `downloadApk` drops the bytes it reads and resolves to `undefined`. The worker's source buffer is therefore always empty.
- A `Uint8Array` is never falsy, so the invalid-input guard never stops the launch.
- `getConnection` caches the promise that `connect()` returned, before it settles. A failed connection therefore stays cached and is never retried.
- A device prompt that resolves to `undefined` is not cached, so the next getter call prompts again.
- A success terminal that arrives before any chunk calls `close` on a `null` writer. The handler throws before `setRunning(false)`. The model records this as the `fault` flag, and the form stays running.
- After the file is closed or aborted, a later chunk's `write` only rejects. The file is unchanged.
- `runCommand` never looks at the exit status.

## Model

| member | source | states |
|---|---|---|
| Text.ReplaceFirst | src/PatchForm.js:82 | without the pattern the text is unchanged; otherwise only the first occurrence is replaced, and the text on both sides is kept |
| Text.Trim | src/PatchForm.js:82 | the result is a slice of the input with only white space on either side, and it neither starts nor ends with white space |
| Text.TrimOfPadded | src/PatchForm.js:53 | trimming removes exactly the white-space padding around an already trimmed string |
| Numbers.ParseDecimalText | src/PatchForm.js:53 | `parseInt` reads back the decimal text of any natural number, after leading blanks and before trailing text that starts with neither a digit nor an `x` (a `0x` would switch to hexadecimal) |
| Numbers.ParseNegativeDecimalText | src/PatchForm.js:53 | a leading minus sign gives the negated value |
| Numbers.ParseNonNumeric | src/PatchForm.js:53 | text whose first non-blank character is neither a sign nor a digit, including empty text, parses as `NaN` |
| Numbers.ParseInt | src/PatchForm.js:53 | after leading blanks: a decimal digit not starting a `0x` prefix gives a non-negative number; a `0x` prefix without a hex digit after it gives `NaN`; a first character that is not a sign or digit, or no character, gives `NaN`; a negative value needs a leading minus |
| Numbers.IntText | src/PatchForm.js:132 | the decimal text a numeric `errorCode` is rendered as reads back through `parseInt` as that same integer, for every integer |
| DeviceOutput.ParseVersion | src/PatchForm.js:64-74 | no value iff no `versionName=` is followed by a non-blank character; otherwise the result is the whole non-blank run after the leftmost such `versionName=` |
| DeviceOutput.ParseVersionOf | src/PatchForm.js:64-69 | a dump showing `versionName=` then a token `v` (end of text or a blank after it) yields exactly `v`, provided no `versionName=<token>` match starts earlier; other keys such as `versionCode=` may come before |
| DeviceOutput.ParseVersionExample | src/PatchForm.js:64-69 | `... versionName=1.20.0_1234 ...` yields `1.20.0_1234` |
| DeviceOutput.ParseVersionAfterCode | src/PatchForm.js:64-69 | in `versionCode=1130 versionName=1.28.0` the earlier `versionCode=` does not match, and the result is `1.28.0` |
| DeviceOutput.ParseVersionAbsent | src/PatchForm.js:71-74 | a dump that never mentions `versionName=` yields no version |
| DeviceOutput.ParseApkPath | src/PatchForm.js:81-85 | no value iff the output lacks `package:`; otherwise a trimmed slice of the output with its first `package:` removed |
| DeviceOutput.ParseApkPathOfLine | src/PatchForm.js:77-86 | round trip: `package:` + a trimmed path + a line end reads back as that path, even when the path contains `package:` again |
| DeviceOutput.ParseApkPathExample | src/PatchForm.js:81-85 | `package:/data/app/com.beatgames.beatsaber-1/base.apk` plus a newline yields the bare path |
| DeviceOutput.GetInstalledVersion | src/PatchForm.js:61-75 | runs `dumpsys package com.beatgames.beatsaber`; a failed spawn rejects, otherwise the dump's version is returned |
| DeviceOutput.GetApkPath | src/PatchForm.js:77-86 | runs `pm path com.beatgames.beatsaber`; a failed spawn rejects, otherwise the parsed path is returned |
| DeviceOutput.MeasurePath | src/PatchForm.js:49-58 | no command and no value unless the path is a non-empty string; otherwise exactly one `du -b` command, whose trimmed output is `parseInt`ed |
| DeviceOutput.GetBytesOfInstalledApk | src/PatchForm.js:47-59 | `pm path` always runs first; a failed path query stops there, otherwise the path is measured |
| DeviceOutput.InstalledBytesOfDu | src/PatchForm.js:47-55 | with a `pm path` line for `p` and a `du` line for `n`, the size is `n`, found by exactly the `pm path` and `du -b p` commands |
| DeviceOutput.ParseDuLine | src/PatchForm.js:53 | a `du` line with a byte count and a newline parses back to that count |
| Resolver.Filter | src/PatchForm.js:42 | the result is a subsequence of the manifest, and every entry in it matches both the installed version and the installed size |
| Resolver.FilterCounts | src/PatchForm.js:42 | every matching entry is kept as many times as the manifest lists it, and nothing else is kept, so an entry is in the result iff it is in the manifest and matches |
| Resolver.FilterAppend | src/PatchForm.js:42 | filtering a manifest split in two gives the two filtered parts in manifest order |
| Resolver.FilterIdempotent | src/PatchForm.js:42 | filtering again changes nothing |
| Resolver.FilterUnknownInstall | src/PatchForm.js:40-42 | an unknown version, or an unknown or `NaN` size, matches no manifest record (every record carries a version string and an integer size), and the result is empty |
| Resolver.FilterExample | src/PatchForm.js:42 | two records for version 1.20.0 with sizes 100 and 200: size 100 selects the first record only, and size 999 selects none |
| Resolver.GetCompatibleDowngrades | src/PatchForm.js:39-45 | `dumpsys` runs first; the result is available iff both queries succeed and the manifest is loaded, and it is then the manifest filtered by the version and size read |
| Pipeline.PatchAndInstall | src/PatchForm.js:88-150 | nothing is fetched unless there is a compatible downgrade; no candidates iff the list is empty; otherwise exactly the first candidate's URL is fetched; the job starts iff there is a candidate and its payload fetch succeeds, so the invalid-input guard never stops it; a started job carries that payload and an empty source buffer, sets neither invalid flag, and starts from the launched form state |
| Pipeline.DownloadApk | src/PatchForm.js:152-178 | runs `pm path` once; reads the APK exactly when the path is a non-empty string, and then only that path; always resolves to `undefined`, read failures included |
| Pipeline.StartedJobSavesChunks | src/PatchForm.js:115-145 | for a started job, chunks followed by a success terminal leave a closed file holding the chunks' bytes in order |
| Consumer.AbortSink | src/PatchForm.js:134-139 | aborting turns a file being written into a discarded one with the same bytes; an unopened, closed or already discarded file is left as it is |
| Consumer.Step | src/PatchForm.js:115-144 | a falsy payload changes nothing; a file once opened keeps its name; a closed or aborted file never changes; a chunk touches only the file, opening it on the first chunk and then appending; an error terminal, or a success terminal with a writer, clears the running flag; a success terminal with no writer throws and changes nothing but the fault flag |
| Consumer.RunChunks | src/PatchForm.js:119-126 | before the terminal message, the file is unopened while no chunk has arrived; after that it is open under the job's name and holds the concatenated chunk bytes in arrival order; nothing else changes |
| Consumer.PatchSucceeds | src/PatchForm.js:140-143 | chunks then a success terminal: the file is closed with exactly the chunks' bytes in order, running is false, and no error is shown |
| Consumer.EmptySuccessFaults | src/PatchForm.js:141-143 | a success terminal with no chunk before it throws, leaves no file, and leaves the form running |
| Consumer.PatchFails | src/PatchForm.js:129-143 | an error terminal shows the error text; `Details: <msg> (code <code or unknown>)` is added iff the detail is non-empty; a file that was begun is discarded with its bytes; running is false |
| Consumer.SinkSettles | src/PatchForm.js:120-124 | over any later messages, an opened file keeps its name (it is opened at most once), and a closed or discarded file stays exactly as it is |
| Consumer.FalsyIgnored | src/PatchForm.js:116-118 | inserting an empty payload anywhere in the stream changes nothing |
| Chunks.FlattenLength | src/utils/QuestAdbUtils.js:115-117 | the concatenation is as long as the sum of the chunk lengths |
| Chunks.FlattenAppend | src/utils/QuestAdbUtils.js:168-175 | concatenating a split stream gives the concatenations of the two parts, one after the other |
| Chunks.ChunkAtOffset | src/utils/QuestAdbUtils.js:118-122 | chunk `i` sits in the buffer at the offset equal to the summed lengths of chunks `0..i-1` |
| Chunks.ReadFile | src/utils/QuestAdbUtils.js:105-124 | the buffer is sized to the sum of the chunk lengths, and it is the in-order concatenation of the chunks |
| Chunks.RunCommand | src/utils/QuestAdbUtils.js:166-178 | the output is the in-order concatenation of the decoded chunks, whatever the exit status |
| Session.GetManager | src/utils/QuestAdbUtils.js:24-29 | a cached manager is returned as is; otherwise the browser's manager (possibly `undefined`) is stored; only that field changes |
| Session.GetDevice | src/utils/QuestAdbUtils.js:32-38 | a cached device is returned without prompting; on a miss a missing manager rejects, otherwise the operator is prompted once and the answer is returned: a chosen device (then cached), `undefined` (not cached), or a rejection; no field is lost |
| Session.GetConnection | src/utils/QuestAdbUtils.js:41-50 | a cached connection, or a cached failure, is returned without connecting; on a miss with a device, `connect()` on that device is returned and cached whether it succeeds or fails; with no device the call rejects and caches nothing |
| Session.GetCredentialStore | src/utils/QuestAdbUtils.js:53-58 | a store for `beatsaver.com` is created, and logged as created, only when none exists; an existing store is returned unchanged |
| Session.GetAdbTransport | src/utils/QuestAdbUtils.js:61-70 | a cached transport is returned as is; on a miss, a rejected device or connection rejects, and otherwise the result is what `authenticate` answers for the device's serial, the connection and the store; a success is cached with the device, connection and store set |
| Session.GetAdb | src/utils/QuestAdbUtils.js:73-78 | a cached handle is returned as is; on a miss the call succeeds iff `getAdbTransport` does, and the handle wraps that transport and is cached |
| Session.GetSync | src/utils/QuestAdbUtils.js:81-87 | a cached sync handle is returned as is; on a miss a rejected bridge handle rejects, and otherwise the result is what `sync()` answers on that handle, cached on success |
| Session.InitChain | src/utils/QuestAdbUtils.js:91-96 | a rejected `getDevice` ends the chain in the state it left; otherwise the rest of the chain runs and keeps every field that step set |
| Session.ChainAfterDevice | src/utils/QuestAdbUtils.js:93-96 | a rejected `getConnection` ends the chain in the state it left, its cached failure included; otherwise the rest runs, keeping the connection, and a store exists afterwards |
| Session.ChainAfterConnection | src/utils/QuestAdbUtils.js:94-96 | the store is created or kept; a rejected `getAdb` ends the chain in the state it left; otherwise the rest runs and the bridge handle stays the one obtained |
| Session.ChainAfterBridge | src/utils/QuestAdbUtils.js:96-97 | a rejected `getSync` ends the chain in the state it left; otherwise the sync handle stays the one obtained and `getManager` acquires nothing new |
| Session.Init | src/utils/QuestAdbUtils.js:90-103 | never fails; every field set before, and every field the chain acquired before a failing step, is kept; a store exists afterwards; `generateKey` is the last event and happens exactly once |
| Session.GettersIdempotent | src/utils/QuestAdbUtils.js:24-87 | after a successful call, calling the same getter again returns the same value and acquires nothing |
| Session.ConnectFailureSticks | src/utils/QuestAdbUtils.js:41-50 | with no cached connection and a device whose `connect()` fails, the call rejects and caches that failure, and the next call fails the same way without connecting again |
| Session.NoDevicePromptsAgain | src/utils/QuestAdbUtils.js:32-38 | a prompt answered with no device is not cached, so asking twice prompts twice |
| Session.TransportUsesCachedDevice | src/utils/QuestAdbUtils.js:61-70 | after success, the transport was authenticated with the serial of the cached device, over the connection opened on that same device, with the `beatsaver.com` store |
| Session.InitAcquiresAll | src/utils/QuestAdbUtils.js:90-103 | when every library call succeeds, `init` on a fresh instance acquires each resource once, in chain order, and then generates the key |
| Session.InitSurvivesFailedPrompt | src/utils/QuestAdbUtils.js:90-103 | a rejected device prompt still ends with the store created and the key generated, and nothing else is acquired |
| Session.InitCompletes | src/utils/QuestAdbUtils.js:90-103 | from any coherent instance, when every library call succeeds, `init` ends with every resource set to what the world answers for the chosen device |
| Session.InitAgainOnlyGeneratesKey | src/utils/QuestAdbUtils.js:90-103 | once every resource is acquired, `init` acquires nothing and only generates another key |
| Session.ReadFile | src/utils/QuestAdbUtils.js:105-124 | with a sync handle, the read succeeds iff the sync read does; its bytes are the read stream's chunks concatenated, with the summed length; a rejected sync handle rejects |
| Session.RunCommand | src/utils/QuestAdbUtils.js:166-178 | with a bridge handle, output exists iff the spawn succeeds, and it is the decoded chunks concatenated; a rejected bridge handle rejects |

## Left out

- Text.ReplaceFirst: a replacement string holding `$` is excluded, because `replace` would expand its `$&`, `$$`, `` $` `` and `$'` patterns. The code only ever passes the empty replacement (src/PatchForm.js:82).
- WebUSB, the ADB protocol and the client libraries (src/utils/QuestAdbUtils.js:1-9) are not modelled. Device discovery, the authentication handshake, `sync()`, read streams and `spawn` are answers from a `World`, and the same question always gets the same answer.
- `writeFile` and `toArray` (src/utils/QuestAdbUtils.js:126-160, 180-183) are left out. They exist for async concurrency, a busy-poll lock over a flag. In the code the flag is reset only inside the write callback and never on failure.
- `readDir` (src/utils/QuestAdbUtils.js:162-164) discards its result, so there is nothing to state about it.
- Interleaving is not modelled. Each getter and `init` runs to completion as one step, so two getters racing on an unset field are not covered.
- UTF-8 decoding in `runCommand` is not modelled: the shell's output arrives as already decoded text chunks. Strings are sequences of code points, not UTF-16 code units.
- Session.ReadFile, Session.RunCommand: the stream contents are taken as given. The piping through `WritableStream` is not modelled.
- Numbers.ParseDecimalText: integers are exact. JavaScript `Number` rounding above 2^53 is not modelled.
- The React form (src/PatchForm.js:11-19, 187-194), console logging, and the unused `zip`/`axml2xml` imports are left out.
- The manifest fetch (src/PatchForm.js:23-37) is left out: the manifest is either `NotLoaded` or `Loaded`.
- The patch fetch (src/PatchForm.js:93-94) is a `Fetch` parameter.
- The streamSaver setup (src/PatchForm.js:106-109) is not modelled.
- The xdelta3 worker (src/PatchForm.js:105, 145) is replaced by the message stream it produces.
- Pipeline.PatchAndInstall: the output file name is an opaque parameter of the handler. The code computes it as `"downgraded_" + getInstalledVersion() + ".apk"` without `await` (src/PatchForm.js:113).
- Pipeline.PatchAndInstall: the commands and reads that `downloadApk` makes are not added to the launch record. Pipeline.DownloadApk lists them, and the launch uses only its `undefined` result.
- Resolver.Filter: manifest records are typed, with a string version, an integer size and a download URL. In JavaScript a record without `SV` compares `undefined === undefined`, so it matches an unknown installed version. The model does not cover such malformed manifests.
- Consumer.PatchFails: worker messages are typed. `errorCode` is absent, a string, or an integer rendered in decimal. Fractional codes, codes of 1e21 and above (rendered in exponent form) and object codes are not modelled.

=== FILE: chunks.dfy ===
/** Accumulation of streamed chunks: `readFile` gathers the byte chunks of a
    sync read stream and copies them into one buffer at running offsets;
    `runCommand` appends the decoded text chunks of a shell's standard output
    to one string. */
module Chunks {

  /** In-order concatenation, folded from the left as `output += chunk` does. */
  function Flatten<T>(xs: seq<seq<T>>): seq<T> {
    if |xs| == 0 then [] else Flatten(xs[..|xs| - 1]) + xs[|xs| - 1]
  }

  /** `chunks.reduce((acc, chunk) => acc + chunk.length, 0)`. */
  function TotalLength<T>(xs: seq<seq<T>>): nat {
    if |xs| == 0 then 0 else TotalLength(xs[..|xs| - 1]) + |xs[|xs| - 1]|
  }

  /** Where chunk `i` starts in the concatenated buffer. */
  function Offset<T>(xs: seq<seq<T>>, i: nat): nat
    requires i <= |xs|
  {
    TotalLength(xs[..i])
  }

  lemma {:induction false} FlattenLength<T>(xs: seq<seq<T>>)
    ensures |Flatten(xs)| == TotalLength(xs)
  {
    if |xs| > 0 {
      FlattenLength(xs[..|xs| - 1]);
    }
  }

  /** Concatenation distributes over splitting the chunk sequence. */
  lemma {:induction false} FlattenAppend<T>(a: seq<seq<T>>, b: seq<seq<T>>)
    ensures Flatten(a + b) == Flatten(a) + Flatten(b)
    decreases |b|
  {
    if |b| == 0 {
      assert a + b == a;
    } else {
      var b' := b[..|b| - 1];
      var ab := a + b;
      assert ab[..|ab| - 1] == a + b';
      assert ab[|ab| - 1] == b[|b| - 1];
      FlattenAppend(a, b');
      assert Flatten(ab) == Flatten(a + b') + b[|b| - 1];
    }
  }

  lemma {:induction false} TotalLengthMonotone<T>(xs: seq<seq<T>>, i: nat, j: nat)
    requires i <= j <= |xs|
    ensures TotalLength(xs[..i]) <= TotalLength(xs[..j])
    decreases j - i
  {
    if i < j {
      assert xs[..j][..j - 1] == xs[..j - 1];
      TotalLengthMonotone(xs, i, j - 1);
    }
  }

  /** Chunk `i` occupies the slice of the concatenation that starts at the
      sum of the lengths of the chunks before it. */
  lemma ChunkAtOffset<T>(xs: seq<seq<T>>, i: nat)
    requires i < |xs|
    ensures Offset(xs, i) + |xs[i]| <= |Flatten(xs)|
    ensures Flatten(xs)[Offset(xs, i)..Offset(xs, i) + |xs[i]|] == xs[i]
  {
    assert xs == xs[..i] + [xs[i]] + xs[i + 1..];
    FlattenAppend(xs[..i] + [xs[i]], xs[i + 1..]);
    FlattenAppend(xs[..i], [xs[i]]);
    assert Flatten([xs[i]]) == Flatten([xs[i]][..0]) + xs[i] == xs[i];
    FlattenLength(xs[..i]);
  }

  /** `readFile` once the read stream has delivered `chunks`: a buffer sized
      to the summed chunk lengths, each chunk copied in at the running offset. */
  method ReadFile(chunks: seq<seq<bv8>>) returns (r: seq<bv8>)
    ensures |r| == TotalLength(chunks)
    ensures r == Flatten(chunks)
  {
    var total := 0;
    var i := 0;
    while i < |chunks|
      invariant 0 <= i <= |chunks|
      invariant total == TotalLength(chunks[..i])
    {
      assert chunks[..i + 1][..i] == chunks[..i];
      total := total + |chunks[i]|;
      i := i + 1;
    }
    assert chunks[..i] == chunks;
    var buffer := new bv8[total];
    var offset := 0;
    i := 0;
    while i < |chunks|
      invariant 0 <= i <= |chunks|
      invariant offset == TotalLength(chunks[..i]) <= total
      invariant buffer[..offset] == Flatten(chunks[..i])
    {
      var chunk := chunks[i];
      assert chunks[..i + 1][..i] == chunks[..i];
      TotalLengthMonotone(chunks, i + 1, |chunks|);
      var j := 0;
      while j < |chunk|
        invariant 0 <= j <= |chunk|
        invariant buffer[..offset] == Flatten(chunks[..i])
        invariant buffer[offset..offset + j] == chunk[..j]
      {
        buffer[offset + j] := chunk[j];
        assert buffer[offset..offset + j + 1] == buffer[offset..offset + j] + [chunk[j]];
        j := j + 1;
      }
      assert buffer[..offset + |chunk|] == buffer[..offset] + buffer[offset..offset + |chunk|];
      offset := offset + |chunk|;
      i := i + 1;
    }
    r := buffer[..];
    FlattenLength(chunks);
  }

  /** `runCommand` once the decoded standard output has delivered `chunks`:
      the text chunks appended in arrival order. The exit status is awaited
      but plays no part in the result. */
  method RunCommand(chunks: seq<string>, exitStatus: int) returns (output: string)
    ensures output == Flatten(chunks)
    ensures |output| == TotalLength(chunks)
  {
    output := "";
    var i := 0;
    while i < |chunks|
      invariant 0 <= i <= |chunks|
      invariant output == Flatten(chunks[..i])
    {
      assert chunks[..i + 1][..i] == chunks[..i];
      output := output + chunks[i];
      i := i + 1;
    }
    assert chunks[..i] == chunks;
    FlattenLength(chunks);
  }
}

=== FILE: consumer.dfy ===
/** The consumer of the patch worker's output: the `worker.onmessage`
    handler of the patch form, as a transition function over the state it
    touches (the output stream and its writer, the running flag and the two
    error texts). The worker sends non-final chunks and then one terminal
    message reporting success or failure. */
module Consumer {
  import opened Wrappers
  import opened Numbers
  import opened Chunks
  import opened Text

  /** The `errorCode` of a terminal message, as a template string renders it. */
  datatype ErrorCode = NoCode | CodeText(text: string) | CodeNumber(number: int)

  /** `e.data` of one worker message. `Falsy` is a missing payload; `Chunk` is
      any payload whose `final` is falsy; `Final` is the terminal message,
      with `error` already reduced to its truthiness. */
  datatype Message =
    | Falsy
    | Chunk(bytes: seq<bv8>)
    | Final(error: bool, detail: Option<string>, code: ErrorCode)

  /** The output file: not yet created, being written, discarded, or finalised.
      `written` is what the writer has accepted, in order. */
  datatype Sink =
    | Unopened
    | Open(name: string, written: seq<bv8>)
    | Aborted(name: string, written: seq<bv8>)
    | Closed(name: string, written: seq<bv8>)

  /** `fault` records that the handler threw (calling `close` on a writer
      that was never created); the throw skips the rest of the handler. */
  datatype State = State(
    sink: Sink,
    running: bool,
    errorMessage: Option<string>,
    extraErrorMessage: Option<string>,
    fault: bool)

  const PatchErrorText := "Error occurred while patching"

  /** The form just before the worker starts: running, no error shown, no file. */
  const Launched := State(Unopened, true, None, None, false)

  /** `${errorCode || "unknown"}`. */
  function CodeShown(code: ErrorCode): string {
    match code
    case NoCode => "unknown"
    case CodeText(t) => if t == "" then "unknown" else t
    case CodeNumber(k) => if k == 0 then "unknown" else IntText(k)
  }

  /** `Details: ${errorMessage} (code ${errorCode || "unknown"})`. */
  function DetailText(detail: string, code: ErrorCode): string {
    "Details: " + detail + " (code " + CodeShown(code) + ")"
  }

  /** What `fileStream.abort()` and `writer.abort()` do to the file: a file
      being written is discarded; one never opened stays unopened, and one
      already finalised or discarded stays so. */
  function AbortSink(s: Sink): (t: Sink)
    ensures s.Unopened? <==> t.Unopened?
    ensures !s.Unopened? ==> t.name == s.name && t.written == s.written && !t.Open?
    ensures s.Open? ==> t == Aborted(s.name, s.written)
    ensures !s.Open? ==> t == s
  {
    match s
    case Open(n, w) => Aborted(n, w)
    case _ => s
  }

  /** One call of the handler; `name` is the file name fixed for the job. A
      write or a close on a writer that is already closed or aborted only
      rejects its promise, so it changes nothing here. */
  function Step(s: State, name: string, m: Message): (t: State)
    ensures m.Falsy? ==> t == s
    ensures !s.sink.Unopened? ==> !t.sink.Unopened? && t.sink.name == s.sink.name
    ensures s.sink.Closed? || s.sink.Aborted? ==> t.sink == s.sink
    ensures m.Chunk? ==> t == s.(sink := t.sink)
    ensures m.Chunk? && s.sink.Unopened? ==> t.sink == Open(name, m.bytes)
    ensures m.Chunk? && s.sink.Open? ==> t.sink == Open(s.sink.name, s.sink.written + m.bytes)
    ensures m.Final? && (m.error || !s.sink.Unopened?) ==> !t.running
    ensures m.Final? && !m.error && s.sink.Unopened? ==> t == s.(fault := true)
    ensures t.fault <==> s.fault || (m.Final? && !m.error && s.sink.Unopened?)
  {
    match m
    case Falsy => s
    case Chunk(bytes) =>
      (match s.sink
       case Unopened => s.(sink := Open(name, bytes))
       case Open(n, w) => s.(sink := Open(n, w + bytes))
       case _ => s)
    case Final(error, detail, code) =>
      if error then
        s.(errorMessage := Some(PatchErrorText),
           extraErrorMessage := if Truthy(detail) then Some(DetailText(detail.value, code)) else s.extraErrorMessage,
           sink := AbortSink(s.sink),
           running := false)
      else
        match s.sink
        case Unopened => s.(fault := true)
        case Open(n, w) => s.(sink := Closed(n, w), running := false)
        case _ => s.(running := false)
  }

  /** The handler applied to the messages in delivery order. */
  function Run(s: State, name: string, ms: seq<Message>): State {
    if |ms| == 0 then s else Step(Run(s, name, ms[..|ms| - 1]), name, ms[|ms| - 1])
  }

  predicate NoFinal(ms: seq<Message>) {
    forall i :: 0 <= i < |ms| ==> !ms[i].Final?
  }

  /** The byte payloads of the chunk messages, in order. */
  function ChunkBytes(ms: seq<Message>): seq<seq<bv8>> {
    if |ms| == 0 then []
    else ChunkBytes(ms[..|ms| - 1]) + (if ms[|ms| - 1].Chunk? then [ms[|ms| - 1].bytes] else [])
  }

  lemma {:induction false} RunAppend(s: State, name: string, ms: seq<Message>, m: Message)
    ensures Run(s, name, ms + [m]) == Step(Run(s, name, ms), name, m)
  {
    assert (ms + [m])[..|ms|] == ms;
  }

  /** Before the terminal message, the file is opened by the first chunk and
      then receives every chunk's bytes in arrival order; nothing else moves. */
  lemma {:induction false} RunChunks(s: State, name: string, ms: seq<Message>)
    requires s.sink.Unopened? && NoFinal(ms)
    ensures var t := Run(s, name, ms);
      && t == s.(sink := t.sink)
      && (|ChunkBytes(ms)| == 0 ==> t.sink == Unopened)
      && (|ChunkBytes(ms)| > 0 ==> t.sink == Open(name, Flatten(ChunkBytes(ms))))
  {
    if |ms| > 0 {
      var init := ms[..|ms| - 1];
      assert NoFinal(init) by {
        forall i | 0 <= i < |init| ensures !init[i].Final? {
          assert init[i] == ms[i];
        }
      }
      RunChunks(s, name, init);
      var m := ms[|ms| - 1];
      assert Run(s, name, ms) == Step(Run(s, name, init), name, m);
      assert ChunkBytes(ms) == ChunkBytes(init) + (if m.Chunk? then [m.bytes] else []);
      ChunkStep(s, name, Run(s, name, init), m, ChunkBytes(init));
    }
  }

  /** One non-terminal message on top of a state that holds the chunks `cs`. */
  lemma ChunkStep(s: State, name: string, p: State, m: Message, cs: seq<seq<bv8>>)
    requires p == s.(sink := p.sink) && !m.Final?
    requires |cs| == 0 ==> p.sink == Unopened
    requires |cs| > 0 ==> p.sink == Open(name, Flatten(cs))
    ensures var t := Step(p, name, m);
      var cs' := cs + (if m.Chunk? then [m.bytes] else []);
      && t == s.(sink := t.sink)
      && (|cs'| == 0 ==> t.sink == Unopened)
      && (|cs'| > 0 ==> t.sink == Open(name, Flatten(cs')))
  {
    if m.Chunk? {
      assert (cs + [m.bytes])[..|cs|] == cs;
      if |cs| == 0 {
        assert Flatten(cs + [m.bytes]) == Flatten(cs) + m.bytes == m.bytes;
      }
    } else {
      assert cs + [] == cs;
    }
  }

  /** A success terminal after at least one chunk finalises a file holding
      exactly the chunks' bytes in arrival order and clears the running flag. */
  lemma PatchSucceeds(name: string, ms: seq<Message>, detail: Option<string>, code: ErrorCode)
    requires NoFinal(ms) && |ChunkBytes(ms)| > 0
    ensures var t := Run(Launched, name, ms + [Final(false, detail, code)]);
      && t.sink == Closed(name, Flatten(ChunkBytes(ms)))
      && !t.running && !t.fault
      && t.errorMessage.None? && t.extraErrorMessage.None?
  {
    RunAppend(Launched, name, ms, Final(false, detail, code));
    RunChunks(Launched, name, ms);
  }

  /** A success terminal with no chunk before it calls `close` on a writer
      that was never created: the handler throws and the form stays running. */
  lemma EmptySuccessFaults(name: string, ms: seq<Message>, detail: Option<string>, code: ErrorCode)
    requires NoFinal(ms) && |ChunkBytes(ms)| == 0
    ensures var t := Run(Launched, name, ms + [Final(false, detail, code)]);
      && t.sink == Unopened && t.fault && t.running
  {
    RunAppend(Launched, name, ms, Final(false, detail, code));
    RunChunks(Launched, name, ms);
  }

  /** An error terminal shows the error, adds the worker's detail text when
      there is one, discards any file begun, and clears the running flag. */
  lemma PatchFails(name: string, ms: seq<Message>, detail: Option<string>, code: ErrorCode)
    requires NoFinal(ms)
    ensures var t := Run(Launched, name, ms + [Final(true, detail, code)]);
      && t.errorMessage == Some(PatchErrorText)
      && t.extraErrorMessage == (if Truthy(detail) then Some(DetailText(detail.value, code)) else None)
      && t.sink == (if |ChunkBytes(ms)| == 0 then Unopened else Aborted(name, Flatten(ChunkBytes(ms))))
      && !t.running && !t.fault
  {
    RunAppend(Launched, name, ms, Final(true, detail, code));
    RunChunks(Launched, name, ms);
  }

  /** Once the file is finalised or discarded, no later message changes it,
      and a file once opened keeps its name: it is opened at most once. */
  lemma {:induction false} SinkSettles(s: State, name: string, ms: seq<Message>)
    ensures !s.sink.Unopened? ==> !Run(s, name, ms).sink.Unopened? && Run(s, name, ms).sink.name == s.sink.name
    ensures s.sink.Closed? || s.sink.Aborted? ==> Run(s, name, ms).sink == s.sink
  {
    if |ms| > 0 {
      var init := ms[..|ms| - 1];
      SinkSettles(s, name, init);
      var before := Run(s, name, init);
      assert Run(s, name, ms) == Step(before, name, ms[|ms| - 1]);
    }
  }

  /** Empty payloads are skipped wherever they arrive. */
  lemma {:induction false} FalsyIgnored(s: State, name: string, ms: seq<Message>, k: nat)
    requires k <= |ms|
    ensures Run(s, name, ms[..k] + [Falsy] + ms[k..]) == Run(s, name, ms)
    decreases |ms| - k
  {
    var with := ms[..k] + [Falsy] + ms[k..];
    if k == |ms| {
      assert with == ms + [Falsy];
      assert ms[..k] == ms;
      RunAppend(s, name, ms, Falsy);
    } else {
      var init := ms[..|ms| - 1];
      FalsyIgnored(s, name, init, k);
      assert init[..k] == ms[..k];
      assert with == (init[..k] + [Falsy] + init[k..]) + [ms[|ms| - 1]];
      RunAppend(s, name, init[..k] + [Falsy] + init[k..], ms[|ms| - 1]);
    }
  }
}

=== FILE: device_output.dfy ===
/** What the downgrader reads off the headset's shell: the installed version
    from `dumpsys package`, the APK location from `pm path`, and the APK's
    size in bytes from `du -b`. Each query runs a command through the shell,
    which either fails (the spawn rejects) or yields the command's text. */
module DeviceOutput {
  import opened Wrappers
  import opened Text
  import opened Numbers

  /** `adbUtils.runCommand`: command line to captured standard output. */
  type Shell = string -> Result<string>

  const DumpsysCommand := "dumpsys package com.beatgames.beatsaber"
  const PmPathCommand := "pm path com.beatgames.beatsaber"
  const VersionKey := "versionName="
  const PackagePrefix := "package:"

  function DuCommand(path: string): string {
    "du -b " + path + " | awk '{print $1}'"
  }

  /** `/versionName=(\S+)/` can match at `i`: the key, then a non-blank character. */
  predicate VersionAt(s: string, i: nat) {
    OccursAt(s, VersionKey, i) && i + |VersionKey| < |s| && !IsSpace(s[i + |VersionKey|])
  }

  /** `v` is the maximal non-blank run of `s` starting at `j`. */
  predicate TokenAt(s: string, j: nat, v: string) {
    && |v| > 0 && j + |v| <= |s| && s[j..j + |v|] == v && NoSpace(v)
    && (j + |v| == |s| || IsSpace(s[j + |v|]))
  }

  /** Length of the run of non-blank characters of `s` starting at `j`. */
  function RunLength(s: string, j: nat): (n: nat)
    requires j <= |s|
    ensures j + n <= |s| && NoSpace(s[j..j + n])
    ensures j + n == |s| || IsSpace(s[j + n])
    decreases |s| - j
  {
    if j < |s| && !IsSpace(s[j]) then
      var n := 1 + RunLength(s, j + 1);
      assert s[j..j + n] == [s[j]] + s[j + 1..j + n];
      n
    else 0
  }

  function FirstVersionFrom(s: string, i: nat): (r: Option<nat>)
    requires i <= |s|
    ensures r.Some? ==> i <= r.value < |s| && VersionAt(s, r.value)
    ensures r.Some? ==> forall j :: i <= j < r.value ==> !VersionAt(s, j)
    ensures r.None? ==> forall j :: i <= j < |s| ==> !VersionAt(s, j)
    decreases |s| - i
  {
    if i == |s| then None
    else if VersionAt(s, i) then Some(i)
    else FirstVersionFrom(s, i + 1)
  }

  /** The capture group of `dump.match(/versionName=(\S+)/)`: the leftmost
      place where the key is followed by a non-blank character, and the
      greedy non-blank run after the key there. */
  function ParseVersion(dump: string): (r: Option<string>)
    ensures r.None? <==> forall i :: 0 <= i < |dump| ==> !VersionAt(dump, i)
    ensures r.Some? ==> (exists i :: 0 <= i < |dump| && VersionAt(dump, i)
                          && (forall j :: 0 <= j < i ==> !VersionAt(dump, j))
                          && TokenAt(dump, i + |VersionKey|, r.value))
  {
    match FirstVersionFrom(dump, 0)
    case None => None
    case Some(i) =>
      var j := i + |VersionKey|;
      var v := dump[j..j + RunLength(dump, j)];
      assert TokenAt(dump, j, v);
      Some(v)
  }

  lemma FirstVersionIs(s: string, k: nat)
    requires k < |s| && VersionAt(s, k)
    requires forall j :: 0 <= j < k ==> !VersionAt(s, j)
    ensures FirstVersionFrom(s, 0) == Some(k)
  {
  }

  lemma RunLengthIs(s: string, j: nat, v: string)
    requires TokenAt(s, j, v)
    ensures RunLength(s, j) == |v|
  {
  }

  /** The key placed at `|pre|` starts a match, and none starts earlier. */
  lemma KeyAfterPrefix(pre: string, t: string)
    requires forall j :: 0 <= j < |pre| ==> pre[j] != 'v'
    requires |t| > 0 && !IsSpace(t[0])
    ensures VersionAt(pre + VersionKey + t, |pre|)
    ensures forall j :: 0 <= j < |pre| ==> !VersionAt(pre + VersionKey + t, j)
  {
    var s := pre + VersionKey + t;
    assert s[|pre|..|pre| + |VersionKey|] == VersionKey;
    assert s[|pre| + |VersionKey|] == t[0];
    forall j | 0 <= j < |pre|
      ensures !VersionAt(s, j)
    {
      assert s[j] == pre[j] && VersionKey[0] == 'v';
      assert j + |VersionKey| <= |s| ==> s[j..j + |VersionKey|][0] == s[j];
    }
  }

  /** `v` followed by a blank or by nothing is a whole token. */
  lemma TokenBeforeBlank(s: string, k: nat, v: string, post: string)
    requires |v| > 0 && NoSpace(v)
    requires |post| == 0 || IsSpace(post[0])
    requires k <= |s| && s[k..] == v + post
    ensures TokenAt(s, k, v)
  {
    assert s[k..k + |v|] == (v + post)[..|v|] == v;
    assert k + |v| < |s| ==> s[k + |v|] == (v + post)[|v|] == post[0];
  }

  /** A dump that shows `versionName=` followed by a token `v` reports `v`,
      provided no `versionName=<token>` match starts inside `pre` (other
      keys such as `versionCode=` may appear there). */
  lemma ParseVersionOf(pre: string, v: string, post: string)
    requires forall j :: 0 <= j < |pre| ==> !VersionAt(pre + VersionKey + v + post, j)
    requires |v| > 0 && NoSpace(v)
    requires |post| == 0 || IsSpace(post[0])
    ensures ParseVersion(pre + VersionKey + v + post) == Some(v)
  {
    var t := v + post;
    var s := pre + VersionKey + t;
    assert pre + VersionKey + v + post == s;
    var k := |pre| + |VersionKey|;
    assert t[0] == v[0];
    assert s[|pre|..|pre| + |VersionKey|] == VersionKey;
    assert s[k] == t[0];
    assert VersionAt(s, |pre|);
    FirstVersionIs(s, |pre|);
    assert s[k..] == t;
    TokenBeforeBlank(s, k, v, post);
    RunLengthIs(s, k, v);
  }

  lemma ParseVersionExample()
    ensures ParseVersion("... versionName=1.20.0_1234 ...") == Some("1.20.0_1234")
  {
    assert "... versionName=1.20.0_1234 ..." == "... " + VersionKey + "1.20.0_1234" + " ...";
    KeyAfterPrefix("... ", "1.20.0_1234" + " ...");
    assert "... " + VersionKey + "1.20.0_1234" + " ..." == "... " + VersionKey + ("1.20.0_1234" + " ...");
    ParseVersionOf("... ", "1.20.0_1234", " ...");
  }

  /** A `dumpsys` excerpt in its usual order: `versionCode=` comes first and
      does not start a match. */
  lemma ParseVersionAfterCode()
    ensures ParseVersion("versionCode=1130 " + "versionName=1.28.0") == Some("1.28.0")
  {
    var pre := "versionCode=1130 ";
    var s := pre + VersionKey + "1.28.0" + "";
    assert s == "versionCode=1130 " + "versionName=1.28.0";
    forall j | 0 <= j < |pre|
      ensures !VersionAt(s, j)
    {
      if j == 0 {
        assert s[..|VersionKey|][7] == 'C' != VersionKey[7];
      } else {
        assert s[j] == pre[j] != 'v';
        assert j + |VersionKey| <= |s| ==> s[j..j + |VersionKey|][0] == s[j];
      }
    }
    ParseVersionOf(pre, "1.28.0", "");
  }

  /** `dump` without any `versionName=<token>` yields no version. */
  lemma ParseVersionAbsent(dump: string)
    requires !exists i :: 0 <= i <= |dump| && OccursAt(dump, VersionKey, i)
    ensures ParseVersion(dump) == None
  {
    assert forall i :: 0 <= i < |dump| ==> !OccursAt(dump, VersionKey, i);
  }

  /** `getApkPath` on the output of `pm path`: no value unless the output
      mentions `package:`; otherwise the output with its first `package:`
      removed, trimmed. */
  function ParseApkPath(out: string): (r: Option<string>)
    ensures r.None? <==> !Includes(out, PackagePrefix)
    ensures r.Some? ==> Trimmed(r.value)
    ensures r.Some? ==>
      var k := IndexOf(out, PackagePrefix).value;
      SliceBetweenSpace(r.value, out[..k] + out[k + |PackagePrefix|..])
  {
    if Includes(out, PackagePrefix) then
      var stripped := ReplaceFirst(out, PackagePrefix, "");
      var k := IndexOf(out, PackagePrefix).value;
      assert stripped == out[..k] + out[k + |PackagePrefix|..];
      Some(Trim(stripped))
    else None
  }

  /** The one-line answer of `pm path` for an installed package reads back
      as the path it names; a later `package:` inside the path is kept. */
  lemma ParseApkPathOfLine(path: string, eol: string)
    requires Trimmed(path) && AllSpace(eol)
    ensures ParseApkPath(PackagePrefix + path + eol) == Some(path)
  {
    var out := PackagePrefix + path + eol;
    assert OccursAt(out, PackagePrefix, 0);
    assert out[..0] + out[|PackagePrefix|..] == [] + path + eol;
    TrimOfPadded([], path, eol);
  }

  lemma ParseApkPathExample()
    ensures var p := "/data/app/com.beatgames.beatsaber" + "-1/base.apk";
            ParseApkPath("package:" + p + "\n") == Some(p)
  {
    var path := "/data/app/com.beatgames.beatsaber" + "-1/base.apk";
    assert !IsSpace(path[0]);
    assert !IsSpace(path[|path| - 1]);
    ParseApkPathOfLine(path, "\n");
  }

  /** `getInstalledVersion`: run `dumpsys` and match the version token. */
  function GetInstalledVersion(run: Shell): (r: Result<Option<string>>)
    ensures run(DumpsysCommand).Err? <==> r.Err?
    ensures r.Ok? ==> r.value == ParseVersion(run(DumpsysCommand).value)
  {
    match run(DumpsysCommand)
    case Err => Err
    case Ok(out) => Ok(ParseVersion(out))
  }

  /** `getApkPath`: run `pm path` and strip the prefix. */
  function GetApkPath(run: Shell): (r: Result<Option<string>>)
    ensures run(PmPathCommand).Err? <==> r.Err?
    ensures r.Ok? ==> r.value == ParseApkPath(run(PmPathCommand).value)
  {
    match run(PmPathCommand)
    case Err => Err
    case Ok(out) => Ok(ParseApkPath(out))
  }

  /** The size query as `getBytesOfInstalledApk` makes it: the commands it
      runs, in order, and the value it returns (`None` for `undefined`). */
  datatype SizeQuery = SizeQuery(commands: seq<string>, bytes: Result<Option<JsNumber>>)

  /** The part of `getBytesOfInstalledApk` after the path is known: only a
      usable path is measured, by `du -b` and `parseInt` of its trimmed output. */
  function MeasurePath(path: Option<string>, run: Shell): (r: SizeQuery)
    ensures r.commands == [] <==> !Truthy(path)
    ensures r.commands == [] ==> r.bytes == Ok(None)
    ensures Truthy(path) ==> r.commands == [DuCommand(path.value)]
    ensures Truthy(path) ==> (r.bytes.Err? <==> run(DuCommand(path.value)).Err?)
    ensures Truthy(path) && r.bytes.Ok? ==>
      r.bytes.value == Some(ParseInt(Trim(run(DuCommand(path.value)).value)))
  {
    if Truthy(path) then
      var du := DuCommand(path.value);
      match run(du)
      case Err => SizeQuery([du], Err)
      case Ok(out) => SizeQuery([du], Ok(Some(ParseInt(Trim(out)))))
    else SizeQuery([], Ok(None))
  }

  /** `getBytesOfInstalledApk`: `pm path` first; a failed spawn propagates. */
  function GetBytesOfInstalledApk(run: Shell): (r: SizeQuery)
    ensures |r.commands| >= 1 && r.commands[0] == PmPathCommand
    ensures GetApkPath(run).Err? ==> r == SizeQuery([PmPathCommand], Err)
    ensures GetApkPath(run).Ok? ==> r.bytes == MeasurePath(GetApkPath(run).value, run).bytes
    ensures GetApkPath(run).Ok? ==> r.commands[1..] == MeasurePath(GetApkPath(run).value, run).commands
  {
    match GetApkPath(run)
    case Err => SizeQuery([PmPathCommand], Err)
    case Ok(path) =>
      var m := MeasurePath(path, run);
      SizeQuery([PmPathCommand] + m.commands, m.bytes)
  }

  /** The trimmed `du` line of a byte count parses back to that count. */
  lemma ParseDuLine(n: nat)
    ensures ParseInt(Trim(DecimalText(n) + "\n")) == Num(n)
  {
    var d := DecimalText(n);
    assert IsDigit(d[0], 10) && IsDigit(d[|d| - 1], 10);
    assert Trimmed(d);
    TrimOfPadded([], d, "\n");
    assert [] + d + "\n" == d + "\n";
    ParseDecimalText([], n, []);
    assert [] + d + [] == d;
  }

  lemma MeasureDuLine(path: string, run: Shell, n: nat)
    requires path != ""
    requires run(DuCommand(path)) == Ok(DecimalText(n) + "\n")
    ensures MeasurePath(Some(path), run) == SizeQuery([DuCommand(path)], Ok(Some(Num(n))))
  {
    ParseDuLine(n);
  }

  /** On a shell that reports the path and prints a byte count, the
      installed size is that count, found by exactly the two queries. */
  lemma InstalledBytesOfDu(run: Shell, path: string, n: nat)
    requires Trimmed(path) && path != ""
    requires run(PmPathCommand) == Ok(PackagePrefix + path + "\n")
    requires run(DuCommand(path)) == Ok(DecimalText(n) + "\n")
    ensures GetBytesOfInstalledApk(run).commands == [PmPathCommand] + [DuCommand(path)]
    ensures GetBytesOfInstalledApk(run).bytes == Ok(Some(Num(n)))
  {
    ParseApkPathOfLine(path, "\n");
    assert GetApkPath(run) == Ok(Some(path));
    MeasureDuLine(path, run, n);
  }
}

=== FILE: numbers.dfy ===
/** Integer text: JavaScript's global `parseInt` with no radix argument (used
    on the output of `du -b`), and the decimal rendering of an integral
    `Number` (used when an error code is spliced into a template string). */
module Numbers {
  import opened Wrappers
  import opened Text

  /** A JavaScript `Number` as `parseInt` can produce it. Only integral values
      arise; `-0` is identified with `0`, as `===` does. */
  datatype JsNumber = NaN | Num(value: int)

  /** The value of `c` as a digit in base `radix` (10 or 16), if it is one. */
  function DigitValue(c: char, radix: nat): (r: Option<nat>)
    ensures r.Some? ==> r.value < radix
  {
    if '0' <= c <= '9' && (c as int) - ('0' as int) < radix then Some((c as int) - ('0' as int))
    else if radix == 16 && 'a' <= c <= 'f' then Some((c as int) - ('a' as int) + 10)
    else if radix == 16 && 'A' <= c <= 'F' then Some((c as int) - ('A' as int) + 10)
    else None
  }

  predicate IsDigit(c: char, radix: nat) {
    DigitValue(c, radix).Some?
  }

  predicate AllDigits(s: string, radix: nat) {
    forall i :: 0 <= i < |s| ==> IsDigit(s[i], radix)
  }

  /** Length of the longest prefix of `s` made of base-`radix` digits. */
  function DigitPrefixLength(s: string, radix: nat): (n: nat)
    ensures n <= |s| && AllDigits(s[..n], radix)
    ensures n == |s| || !IsDigit(s[n], radix)
  {
    if |s| > 0 && IsDigit(s[0], radix) then
      var n := 1 + DigitPrefixLength(s[1..], radix);
      assert s[..n] == [s[0]] + s[1..][..n - 1];
      n
    else 0
  }

  /** The number a string of digits denotes, most significant digit first. */
  function DigitsValue(ds: string, radix: nat): nat
    requires AllDigits(ds, radix)
  {
    if |ds| == 0 then 0
    else DigitsValue(ds[..|ds| - 1], radix) * radix + DigitValue(ds[|ds| - 1], radix).value
  }

  /** The unsigned part of `parseInt`: base 16 after a `0x`/`0X` prefix,
      base 10 otherwise, then the longest run of digits; no digit gives `None`. */
  function ParseUnsigned(u: string): (r: Option<nat>)
    ensures var hex := |u| >= 2 && u[0] == '0' && (u[1] == 'x' || u[1] == 'X');
      && (|u| > 0 && IsDigit(u[0], 10) && !hex ==> r.Some?)
      && (hex && (|u| == 2 || !IsDigit(u[2], 16)) ==> r.None?)
      && (|u| == 0 || !IsDigit(u[0], 10) ==> r.None?)
  {
    var hex := |u| >= 2 && u[0] == '0' && (u[1] == 'x' || u[1] == 'X');
    var radix := if hex then 16 else 10;
    var body := if hex then u[2..] else u;
    var n := DigitPrefixLength(body, radix);
    if n == 0 then None else Some(DigitsValue(body[..n], radix))
  }

  /** `parseInt(s)`: skip leading white space, take an optional sign, then
      read the unsigned part; no digit at all gives `NaN`. */
  function ParseInt(s: string): (r: JsNumber)
    ensures var t := TrimStart(s);
      var hex := |t| >= 2 && t[0] == '0' && (t[1] == 'x' || t[1] == 'X');
      && (|t| > 0 && IsDigit(t[0], 10) && !hex ==> r.Num? && r.value >= 0)
      && (hex && (|t| == 2 || !IsDigit(t[2], 16)) ==> r.NaN?)
      && (|t| == 0 || !(t[0] == '-' || t[0] == '+' || IsDigit(t[0], 10)) ==> r.NaN?)
      && (r.Num? && r.value < 0 ==> t[0] == '-')
  {
    var t := TrimStart(s);
    var negative := |t| > 0 && t[0] == '-';
    var u := if |t| > 0 && (t[0] == '-' || t[0] == '+') then t[1..] else t;
    match ParseUnsigned(u)
    case None => NaN
    case Some(m) =>
      var v: int := if negative then -(m as int) else m;
      Num(v)
  }

  function DigitChar(d: nat): (c: char)
    requires d < 10
    ensures DigitValue(c, 10) == Some(d)
  {
    ('0' as int + d) as char
  }

  /** The decimal text of a natural number, with no leading zero. */
  function DecimalText(n: nat): (r: string)
    ensures |r| > 0 && AllDigits(r, 10)
    ensures r[0] == '0' ==> n == 0
  {
    if n < 10 then [DigitChar(n)]
    else DecimalText(n / 10) + [DigitChar(n % 10)]
  }

  /** `String(i)` for an integral `Number` of moderate magnitude: `parseInt`
      reads it back. */
  function IntText(i: int): (r: string)
    ensures ParseInt(r) == Num(i)
  {
    if i < 0 then
      ParseNegativeDecimalText(-i);
      "-" + DecimalText(-i)
    else
      ParseBareDecimalText(i);
      DecimalText(i)
  }

  lemma {:induction false} DecimalTextValue(n: nat)
    ensures DigitsValue(DecimalText(n), 10) == n
  {
    var t := DecimalText(n);
    if n >= 10 {
      DecimalTextValue(n / 10);
      assert t[..|t| - 1] == DecimalText(n / 10);
    }
  }

  lemma {:induction false} DigitPrefixOfDigits(ds: string, rest: string, radix: nat)
    requires AllDigits(ds, radix)
    requires |rest| == 0 || !IsDigit(rest[0], radix)
    ensures DigitPrefixLength(ds + rest, radix) == |ds|
  {
    if |ds| > 0 {
      assert (ds + rest)[1..] == ds[1..] + rest;
      DigitPrefixOfDigits(ds[1..], rest, radix);
    } else {
      assert ds + rest == rest;
    }
  }

  lemma UnsignedDecimalText(n: nat, rest: string)
    requires |rest| == 0 || (!IsDigit(rest[0], 10) && rest[0] != 'x' && rest[0] != 'X')
    ensures ParseUnsigned(DecimalText(n) + rest) == Some(n)
  {
    var d := DecimalText(n);
    var x := d + rest;
    DigitPrefixOfDigits(d, rest, 10);
    assert x[..|d|] == d;
    DecimalTextValue(n);
  }

  /** `parseInt` reads back the decimal text of a natural number, whatever
      white space precedes it and whatever non-digit text follows it. */
  lemma ParseDecimalText(pre: string, n: nat, rest: string)
    requires AllSpace(pre)
    requires |rest| == 0 || (!IsDigit(rest[0], 10) && rest[0] != 'x' && rest[0] != 'X')
    ensures ParseInt(pre + DecimalText(n) + rest) == Num(n)
  {
    var d := DecimalText(n);
    var x := d + rest;
    assert pre + d + rest == pre + x;
    assert !IsSpace(x[0]) && x[0] != '-' && x[0] != '+';
    TrimStartOfPadded(pre, x);
    UnsignedDecimalText(n, rest);
    ParseUnsignedText(pre + x, x, n);
  }

  /** Unsigned text that trimming leaves in front reads as its value. */
  lemma ParseUnsignedText(s: string, x: string, n: nat)
    requires TrimStart(s) == x && |x| > 0 && x[0] != '-' && x[0] != '+'
    requires ParseUnsigned(x) == Some(n)
    ensures ParseInt(s) == Num(n)
  {
  }

  /** A leading minus sign negates the value read. */
  lemma ParseBareDecimalText(n: nat)
    ensures ParseInt(DecimalText(n)) == Num(n)
  {
    ParseDecimalText([], n, []);
    assert [] + DecimalText(n) + [] == DecimalText(n);
  }

  lemma ParseNegativeDecimalText(n: nat)
    ensures ParseInt("-" + DecimalText(n)) == Num(-(n as int))
  {
    var d := DecimalText(n);
    var s := "-" + d;
    TrimStartOfPadded([], s);
    assert [] + s == s;
    assert s[1..] == d;
    UnsignedDecimalText(n, []);
    assert d + [] == d;
  }

  /** Text whose first non-blank character is neither a sign nor a decimal
      digit (an error message, or nothing at all) parses as `NaN`. */
  lemma ParseNonNumeric(pre: string, rest: string)
    requires AllSpace(pre)
    requires |rest| == 0 || (!IsSpace(rest[0]) && !IsDigit(rest[0], 10) && rest[0] != '-' && rest[0] != '+')
    ensures ParseInt(pre + rest) == NaN
  {
    TrimStartOfPadded(pre, rest);
  }
}

=== FILE: pipeline.dfy ===
/** `patchAndInstall`: resolve the compatible downgrades, and only when
    there is one, fetch the first candidate's patch, build the two buffers
    and start the patch worker with a fresh form state. */
module Pipeline {
  import opened Wrappers
  import opened DeviceOutput
  import opened Resolver
  import Consumer
  import Chunks
  import opened Text

  /** `fetch(url)` followed by `arrayBuffer()`: the payload, or a rejection. */
  type Fetch = string -> Result<seq<bv8>>

  /** The buffers posted to the worker with the `start` command. */
  datatype PatchJob = PatchJob(source: seq<bv8>, patch: seq<bv8>)

  datatype LaunchOutcome =
    | Rejected
    | NoCandidates
    | Started(sourceInvalid: bool, patchInvalid: bool, job: PatchJob, form: Consumer.State)

  /** The URLs fetched, in order, and how the attempt ended. */
  datatype Launch = Launch(fetched: seq<string>, outcome: LaunchOutcome)

  /** What `downloadApk()` did: the shell commands it ran, the device paths
      it read, and the value it resolved to. */
  datatype Download = Download(commands: seq<string>, readPaths: seq<string>, value: Option<seq<bv8>>)

  /** `downloadApk()`: ask `pm path`, read the APK when the path is usable,
      and drop what was read. A rejected query or read is caught, so every
      path resolves to `undefined`. */
  function DownloadApk(run: Shell): (d: Download)
    ensures d.commands == [PmPathCommand]
    ensures d.readPaths == [] <==> !(GetApkPath(run).Ok? && Truthy(GetApkPath(run).value))
    ensures d.readPaths != [] ==> d.readPaths == [GetApkPath(run).value.value]
    ensures d.value.None?
  {
    match GetApkPath(run)
    case Err => Download([PmPathCommand], [], None)
    case Ok(path) =>
      if Truthy(path) then Download([PmPathCommand], [path.value], None)
      else Download([PmPathCommand], [], None)
  }

  function PatchAndInstall(manifest: Manifest, run: Shell, fetch: Fetch): (r: Launch)
    ensures var ds := GetCompatibleDowngrades(manifest, run).downgrades;
      && (r.fetched == [] <==> !(ds.Ok? && |ds.value| > 0))
      && (r.outcome.NoCandidates? <==> ds == Ok([]))
      && (ds.Ok? && |ds.value| > 0 ==> r.fetched == [ds.value[0].download])
    ensures r.outcome.Started? ==>
      var ds := GetCompatibleDowngrades(manifest, run).downgrades;
      && ds.Ok? && |ds.value| > 0
      && fetch(ds.value[0].download) == Ok(r.outcome.job.patch)
      && r.outcome.job.source == []
      && !r.outcome.sourceInvalid && !r.outcome.patchInvalid
      && r.outcome.form == Consumer.Launched
    ensures var ds := GetCompatibleDowngrades(manifest, run).downgrades;
      r.outcome.Started? <==> ds.Ok? && |ds.value| > 0 && fetch(ds.value[0].download).Ok?
  {
    match GetCompatibleDowngrades(manifest, run).downgrades
    case Err => Launch([], Rejected)
    case Ok(ds) =>
      if |ds| == 0 then Launch([], NoCandidates)
      else
        var url := ds[0].download;
        match fetch(url)
        case Err => Launch([url], Rejected)
        case Ok(patch) =>
          // `downloadApk()` resolves to `undefined` (DownloadApk), and `new Uint8Array(undefined)` is empty.
          var apkData: seq<bv8> := [];
          // A `Uint8Array` is an object, so `!apkData` and `!patchData` are false even when empty.
          Launch([url], Started(false, false, PatchJob(apkData, patch), Consumer.Launched))
  }

  /** A started job whose worker streams chunks and then reports success
      leaves a finalised file made of those chunks, in order. */
  lemma StartedJobSavesChunks(manifest: Manifest, run: Shell, fetch: Fetch, name: string, ms: seq<Consumer.Message>)
    requires PatchAndInstall(manifest, run, fetch).outcome.Started?
    requires Consumer.NoFinal(ms) && |Consumer.ChunkBytes(ms)| > 0
    ensures var form := PatchAndInstall(manifest, run, fetch).outcome.form;
      var t := Consumer.Run(form, name, ms + [Consumer.Final(false, None, Consumer.NoCode)]);
      t.sink == Consumer.Closed(name, Chunks.Flatten(Consumer.ChunkBytes(ms))) && !t.running
  {
    Consumer.PatchSucceeds(name, ms, None, Consumer.NoCode);
  }
}

=== FILE: resolver.dfy ===
/** The downgrade resolver: which entries of the version manifest apply to
    the game as installed, judged by source version and source byte size. */
module Resolver {
  import opened Wrappers
  import opened Numbers
  import opened DeviceOutput

  /** One manifest entry: `{SV, SourceByteSize, download}`. */
  datatype VersionRecord = VersionRecord(sv: string, sourceByteSize: int, download: string)

  /** The manifest state held by the form: the initial empty array, which
      has no `versions` member, or the fetched document. */
  datatype Manifest = NotLoaded | Loaded(versions: seq<VersionRecord>)

  /** `version.SV === installedVersion && version.SourceByteSize === installedBytes`,
      where an `undefined` or `NaN` installed value equals nothing. */
  predicate Compatible(r: VersionRecord, installedVersion: Option<string>, installedBytes: Option<JsNumber>) {
    installedVersion == Some(r.sv) && installedBytes == Some(Num(r.sourceByteSize))
  }

  /** `a` is `b` with some elements left out, order kept. */
  ghost predicate IsSubsequence<T>(a: seq<T>, b: seq<T>)
    decreases |b|
  {
    |a| == 0 || (|b| > 0 && if a[0] == b[0] then IsSubsequence(a[1..], b[1..]) else IsSubsequence(a, b[1..]))
  }

  /** `versions.filter(...)` on the compatibility test. */
  function Filter(versions: seq<VersionRecord>, installedVersion: Option<string>, installedBytes: Option<JsNumber>): (r: seq<VersionRecord>)
    ensures IsSubsequence(r, versions)
    ensures forall i :: 0 <= i < |r| ==> Compatible(r[i], installedVersion, installedBytes)
  {
    if |versions| == 0 then []
    else
      var rest := Filter(versions[1..], installedVersion, installedBytes);
      assert versions == [versions[0]] + versions[1..];
      if Compatible(versions[0], installedVersion, installedBytes) then
        assert ([versions[0]] + rest)[1..] == rest;
        [versions[0]] + rest
      else rest
  }

  /** The filter keeps every compatible entry as often as the manifest lists
      it and nothing else: with the ordering kept, that fixes the result. */
  lemma {:induction false} FilterCounts(versions: seq<VersionRecord>, v: Option<string>, n: Option<JsNumber>)
    ensures forall x :: multiset(Filter(versions, v, n))[x] == if Compatible(x, v, n) then multiset(versions)[x] else 0
    ensures forall x :: x in Filter(versions, v, n) <==> x in versions && Compatible(x, v, n)
  {
    if |versions| > 0 {
      FilterCounts(versions[1..], v, n);
      assert versions == [versions[0]] + versions[1..];
      assert multiset(versions) == multiset{versions[0]} + multiset(versions[1..]);
      var rest := Filter(versions[1..], v, n);
      if Compatible(versions[0], v, n) {
        assert multiset([versions[0]] + rest) == multiset{versions[0]} + multiset(rest);
      }
    }
  }

  /** Filtering a manifest split in two filters each part, in manifest order. */
  lemma {:induction false} FilterAppend(a: seq<VersionRecord>, b: seq<VersionRecord>, v: Option<string>, n: Option<JsNumber>)
    ensures Filter(a + b, v, n) == Filter(a, v, n) + Filter(b, v, n)
  {
    if |a| > 0 {
      var ab := a + b;
      assert ab[1..] == a[1..] + b;
      assert ab[0] == a[0];
      FilterAppend(a[1..], b, v, n);
      var head := if Compatible(a[0], v, n) then [a[0]] else [];
      assert Filter(ab, v, n) == head + Filter(a[1..] + b, v, n);
      assert Filter(a, v, n) == head + Filter(a[1..], v, n);
    } else {
      assert a + b == b;
    }
  }

  /** Filtering again changes nothing. */
  lemma {:induction false} FilterIdempotent(versions: seq<VersionRecord>, v: Option<string>, n: Option<JsNumber>)
    ensures Filter(Filter(versions, v, n), v, n) == Filter(versions, v, n)
  {
    if |versions| > 0 {
      FilterIdempotent(versions[1..], v, n);
      var rest := Filter(versions[1..], v, n);
      if Compatible(versions[0], v, n) {
        assert ([versions[0]] + rest)[1..] == rest;
      }
    }
  }

  /** When the version or the size could not be read (`undefined`, or a
      size `parseInt` could not read), nothing is compatible. */
  lemma {:induction false} FilterUnknownInstall(versions: seq<VersionRecord>, v: Option<string>, n: Option<JsNumber>)
    requires v.None? || n.None? || n == Some(NaN)
    ensures Filter(versions, v, n) == []
  {
    if |versions| > 0 {
      FilterUnknownInstall(versions[1..], v, n);
    }
  }

  /** Two entries for the same version with different sizes: the size picks one, or none. */
  lemma FilterExample()
    ensures var m := [VersionRecord("1.20.0", 100, "A"), VersionRecord("1.20.0", 200, "B")];
            && Filter(m, Some("1.20.0"), Some(Num(100))) == [VersionRecord("1.20.0", 100, "A")]
            && Filter(m, Some("1.20.0"), Some(Num(999))) == []
  {
    var m := [VersionRecord("1.20.0", 100, "A"), VersionRecord("1.20.0", 200, "B")];
    assert m[1..] == [VersionRecord("1.20.0", 200, "B")];
    assert m[1..][1..] == [];
  }

  /** What `getCompatibleDowngrades` leaves behind: the shell commands it
      ran, in order, and either the filtered manifest or a rejection. */
  datatype Resolution = Resolution(commands: seq<string>, downgrades: Result<seq<VersionRecord>>)

  /** `getCompatibleDowngrades`: read the installed version, then the
      installed size, then filter the manifest. A failed command, or a
      manifest that was never loaded, rejects. */
  function GetCompatibleDowngrades(manifest: Manifest, run: Shell): (r: Resolution)
    ensures |r.commands| >= 1 && r.commands[0] == DumpsysCommand
    ensures r.downgrades.Ok? <==> GetInstalledVersion(run).Ok? && GetBytesOfInstalledApk(run).bytes.Ok? && manifest.Loaded?
    ensures r.downgrades.Ok? ==>
      r.downgrades.value == Filter(manifest.versions, GetInstalledVersion(run).value, GetBytesOfInstalledApk(run).bytes.value)
  {
    match GetInstalledVersion(run)
    case Err => Resolution([DumpsysCommand], Err)
    case Ok(version) =>
      var size := GetBytesOfInstalledApk(run);
      var commands := [DumpsysCommand] + size.commands;
      match size.bytes
      case Err => Resolution(commands, Err)
      case Ok(bytes) =>
        if manifest.NotLoaded? then Resolution(commands, Err)
        else Resolution(commands, Ok(Filter(manifest.versions, version, bytes)))
  }
}

=== FILE: session.dfy ===
/** The device session held by `QuestAdbUtils`: a chain of lazily acquired,
    memoised resources (device manager, device, connection, credential
    store, authenticated transport, bridge handle, sync handle), each getter
    filling its field only while it is unset. Every call into the USB and
    bridge libraries is an answer taken from a `World`, and each acquisition
    is recorded in the session's log so that repeated acquisitions show. */
module Session {
  import opened Wrappers
  import Chunks

  datatype Manager = Manager(id: nat)
  datatype Device = Device(serial: string, id: nat)
  datatype Connection = Connection(id: nat)
  datatype CredentialStore = CredentialStore(appName: string)
  datatype Transport = Transport(id: nat)
  datatype Adb = Adb(transport: Transport)
  datatype SyncHandle = SyncHandle(id: nat)

  /** How the operator answers the device prompt: a device, no choice (the
      prompt resolves to `undefined`), or a rejected prompt. */
  datatype DeviceAnswer = Chosen(device: Device) | NoneChosen | PromptFails

  /** The libraries' answers: the browser's device manager (`undefined`
      without WebUSB), the prompt, `connect`, the authentication handshake,
      `adb.sync()`, a sync read stream and a shell's decoded output. The same
      question always gets the same answer. */
  datatype World = World(
    browser: Option<Manager>,
    request: DeviceAnswer,
    connect: Device -> Result<Connection>,
    authenticate: (string, Connection, CredentialStore) -> Result<Transport>,
    openSync: Adb -> Result<SyncHandle>,
    read: (SyncHandle, string) -> Result<seq<seq<bv8>>>,
    spawn: (Adb, string) -> Result<seq<string>>)

  /** Acquisitions and side effects, in the order they happen. */
  datatype Event =
    | RequestDevice(manager: Manager)
    | Connect(device: Device)
    | CreateStore(appName: string)
    | Authenticate(serial: string, connection: Connection, store: CredentialStore)
    | CreateAdb(transport: Transport)
    | OpenSync(adb: Adb)
    | GenerateKey(store: CredentialStore)

  /** The fields of a `QuestAdbUtils` instance, `None` standing for `null`.
      `connection` caches the promise `connect()` returned, so a connection
      attempt that failed stays cached as `Some(Err)`. */
  datatype Utils = Utils(
    manager: Option<Manager>,
    device: Option<Device>,
    connection: Option<Result<Connection>>,
    store: Option<CredentialStore>,
    transport: Option<Transport>,
    adb: Option<Adb>,
    sync: Option<SyncHandle>,
    log: seq<Event>)

  /** A getter's answer and the instance after the call. */
  datatype Got<T> = Got(result: Result<T>, utils: Utils)

  const StoreName := "beatsaver.com"

  /** A newly constructed instance: every field `null`. */
  const Fresh := Utils(None, None, None, None, None, None, None, [])

  predicate Keeps<T(==)>(a: Option<T>, b: Option<T>) {
    a.Some? ==> b == a
  }

  /** `v` is a later state of `u`: no field once set is lost or replaced,
      and the log only grows, with no key generation among the new events. */
  predicate Extends(u: Utils, v: Utils) {
    && Keeps(u.manager, v.manager) && Keeps(u.device, v.device)
    && Keeps(u.connection, v.connection) && Keeps(u.store, v.store)
    && Keeps(u.transport, v.transport) && Keeps(u.adb, v.adb) && Keeps(u.sync, v.sync)
    && u.log <= v.log
    && forall i :: |u.log| <= i < |v.log| ==> !v.log[i].GenerateKey?
  }

  lemma ExtendsTransitive(u: Utils, v: Utils, x: Utils)
    requires Extends(u, v) && Extends(v, x)
    ensures Extends(u, x)
  {
    forall i | |u.log| <= i < |x.log|
      ensures !x.log[i].GenerateKey?
    {
      if i < |v.log| {
        assert x.log[i] == v.log[i];
      }
    }
  }

  /** Every cached field is what the world answered for the fields it was
      built from: the connection is the cached device's, the transport was
      authenticated with the cached device's serial, connection and store. */
  predicate Coherent(u: Utils, w: World) {
    && (u.manager.Some? ==> u.manager == w.browser)
    && (u.device.Some? ==> u.manager.Some? && w.request == Chosen(u.device.value))
    && (u.connection.Some? ==> u.device.Some? && u.connection.value == w.connect(u.device.value))
    && (u.store.Some? ==> u.store.value == CredentialStore(StoreName))
    && (u.transport.Some? ==>
          && u.device.Some? && u.connection.Some? && u.connection.value.Ok? && u.store.Some?
          && w.authenticate(u.device.value.serial, u.connection.value.value, u.store.value) == Ok(u.transport.value))
    && (u.adb.Some? ==> u.transport.Some? && u.adb.value == Adb(u.transport.value))
    && (u.sync.Some? ==> u.adb.Some? && w.openSync(u.adb.value) == Ok(u.sync.value))
  }

  /** `getManager`: the browser's manager, stored on first use (it may be `undefined`). */
  function GetManager(u: Utils, w: World): (g: Got<Option<Manager>>)
    ensures u.manager.Some? ==> g == Got(Ok(u.manager), u)
    ensures u.manager.None? ==> g.utils.manager == w.browser
    ensures g.result == Ok(g.utils.manager) && g.utils == u.(manager := g.utils.manager)
    ensures Extends(u, g.utils)
    ensures Coherent(u, w) ==> Coherent(g.utils, w)
  {
    if u.manager.Some? then Got(Ok(u.manager), u)
    else Got(Ok(w.browser), u.(manager := w.browser))
  }

  /** `getDevice`: prompt through the manager unless a device is cached. A
      prompt answered with no device leaves the field unset, so the next
      call prompts again; a missing manager throws. */
  function GetDevice(u: Utils, w: World): (g: Got<Option<Device>>)
    ensures u.device.Some? ==> g == Got(Ok(u.device), u)
    ensures g.result.Ok? && g.result.value.Some? ==> g.utils.device == g.result.value
    ensures Extends(u, g.utils)
    ensures |g.utils.log| <= |u.log| + 1
    ensures u.device.None? && GetManager(u, w).utils.manager.None? ==> g.result.Err?
    ensures var m := GetManager(u, w).utils; u.device.None? && m.manager.Some? ==>
      && g.utils.log == m.log + [RequestDevice(m.manager.value)]
      && (w.request.Chosen? ==> g.result == Ok(Some(w.request.device)))
      && (w.request.NoneChosen? ==> g.result == Ok(None) && g.utils.device.None?)
      && (w.request.PromptFails? ==> g.result.Err?)
    ensures Coherent(u, w) ==> Coherent(g.utils, w)
  {
    if u.device.Some? then Got(Ok(u.device), u)
    else
      var m := GetManager(u, w);
      var u1 := m.utils;
      if u1.manager.None? then Got(Err, u1)
      else
        var u2 := u1.(log := u1.log + [RequestDevice(u1.manager.value)]);
        match w.request
        case Chosen(d) => Got(Ok(Some(d)), u2.(device := Some(d)))
        case NoneChosen => Got(Ok(None), u2)
        case PromptFails => Got(Err, u2)
  }

  /** `getConnection`: connect the device unless a connection is cached. The
      pending `connect()` is stored before it settles, so its failure is
      cached too and never retried. */
  function GetConnection(u: Utils, w: World): (g: Got<Connection>)
    ensures u.connection.Some? ==> g == Got(u.connection.value, u)
    ensures g.result.Ok? ==> g.utils.connection == Some(g.result)
    ensures u.connection.None? ==>
      var d := GetDevice(u, w).result;
      if d.Ok? && d.value.Some? then g.result == w.connect(d.value.value) && g.utils.connection == Some(g.result)
      else g.result.Err? && g.utils.connection.None?
    ensures Extends(u, g.utils)
    ensures Coherent(u, w) ==> Coherent(g.utils, w)
  {
    if u.connection.Some? then Got(u.connection.value, u)
    else
      var d := GetDevice(u, w);
      if d.result.Err? || d.result.value.None? then Got(Err, d.utils)
      else
        var dev := d.result.value.value;
        var c := w.connect(dev);
        Got(c, d.utils.(connection := Some(c), log := d.utils.log + [Connect(dev)]))
  }

  /** `getCredentialStore`: create the store for `beatsaver.com` unless one exists. */
  function GetCredentialStore(u: Utils, w: World): (g: Got<CredentialStore>)
    ensures u.store.Some? ==> g == Got(Ok(u.store.value), u)
    ensures u.store.None? ==>
      g == Got(Ok(CredentialStore(StoreName)),
               u.(store := Some(CredentialStore(StoreName)), log := u.log + [CreateStore(StoreName)]))
    ensures g.result.Ok? && g.utils.store == Some(g.result.value)
    ensures Extends(u, g.utils)
    ensures Coherent(u, w) ==> Coherent(g.utils, w)
  {
    if u.store.Some? then Got(Ok(u.store.value), u)
    else
      var s := CredentialStore(StoreName);
      Got(Ok(s), u.(store := Some(s), log := u.log + [CreateStore(StoreName)]))
  }

  /** `getAdbTransport`: authenticate unless a transport is cached, reading
      the device's serial, then the connection, then the store. */
  function GetAdbTransport(u: Utils, w: World): (g: Got<Transport>)
    ensures u.transport.Some? ==> g == Got(Ok(u.transport.value), u)
    ensures g.result.Ok? ==> g.utils.transport == Some(g.result.value)
    ensures u.transport.None? && g.result.Ok? ==>
      g.utils.device.Some? && g.utils.connection.Some? && g.utils.store.Some?
    ensures u.transport.None? ==>
      var d := GetDevice(u, w);
      if d.result.Err? || d.result.value.None? then g.result.Err?
      else
        var c := GetConnection(d.utils, w);
        if c.result.Err? then g.result.Err?
        else g.result == w.authenticate(d.result.value.value.serial, c.result.value,
                                        GetCredentialStore(c.utils, w).result.value)
    ensures Extends(u, g.utils)
    ensures Coherent(u, w) ==> Coherent(g.utils, w)
  {
    if u.transport.Some? then Got(Ok(u.transport.value), u)
    else
      var d := GetDevice(u, w);
      if d.result.Err? || d.result.value.None? then Got(Err, d.utils)
      else
        var dev := d.result.value.value;
        var c := GetConnection(d.utils, w);
        if c.result.Err? then Got(Err, c.utils)
        else
          var st := GetCredentialStore(c.utils, w);
          var store := st.result.value;
          var u3 := st.utils.(log := st.utils.log + [Authenticate(dev.serial, c.result.value, store)]);
          match w.authenticate(dev.serial, c.result.value, store)
          case Err => Got(Err, u3)
          case Ok(t) => Got(Ok(t), u3.(transport := Some(t)))
  }

  /** `getAdb`: wrap the transport in a bridge handle unless one is cached. */
  function GetAdb(u: Utils, w: World): (g: Got<Adb>)
    ensures u.adb.Some? ==> g == Got(Ok(u.adb.value), u)
    ensures g.result.Ok? ==> g.utils.adb == Some(g.result.value)
    ensures u.adb.None? && g.result.Ok? ==> g.utils.transport == Some(g.result.value.transport)
    ensures u.adb.None? ==>
      var t := GetAdbTransport(u, w).result;
      (g.result.Ok? <==> t.Ok?) && (t.Ok? ==> g.result == Ok(Adb(t.value)))
    ensures Extends(u, g.utils)
    ensures Coherent(u, w) ==> Coherent(g.utils, w)
  {
    if u.adb.Some? then Got(Ok(u.adb.value), u)
    else
      var t := GetAdbTransport(u, w);
      if t.result.Err? then Got(Err, t.utils)
      else
        var a := Adb(t.result.value);
        Got(Ok(a), t.utils.(adb := Some(a), log := t.utils.log + [CreateAdb(t.result.value)]))
  }

  /** `getSync`: open the sync service unless a handle is cached. */
  function GetSync(u: Utils, w: World): (g: Got<SyncHandle>)
    ensures u.sync.Some? ==> g == Got(Ok(u.sync.value), u)
    ensures g.result.Ok? ==> g.utils.sync == Some(g.result.value)
    ensures u.sync.None? && g.result.Ok? ==> g.utils.adb.Some? && w.openSync(g.utils.adb.value) == g.result
    ensures u.sync.None? ==>
      var a := GetAdb(u, w).result;
      if a.Ok? then g.result == w.openSync(a.value) else g.result.Err?
    ensures Extends(u, g.utils)
    ensures Coherent(u, w) ==> Coherent(g.utils, w)
  {
    if u.sync.Some? then Got(Ok(u.sync.value), u)
    else
      var a := GetAdb(u, w);
      if a.result.Err? then Got(Err, a.utils)
      else
        var u1 := a.utils.(log := a.utils.log + [OpenSync(a.result.value)]);
        match w.openSync(a.result.value)
        case Err => Got(Err, u1)
        case Ok(s) => Got(Ok(s), u1.(sync := Some(s)))
  }

  /** The acquisition steps `init` runs inside its `try`, stopping at the
      first one that throws; the block's failure is swallowed. */
  function InitChain(u: Utils, w: World): (v: Utils)
    ensures Extends(u, v)
    ensures Coherent(u, w) ==> Coherent(v, w)
    ensures var d := GetDevice(u, w);
      && (d.result.Err? ==> v == d.utils)
      && (d.result.Ok? ==> v == ChainAfterDevice(d.utils, w) && Extends(d.utils, v))
  {
    var d := GetDevice(u, w);
    if d.result.Err? then d.utils
    else
      var v := ChainAfterDevice(d.utils, w);
      ExtendsTransitive(u, d.utils, v);
      v
  }

  /** The chain once `getDevice` has settled: connect, then the rest. */
  function ChainAfterDevice(u: Utils, w: World): (v: Utils)
    ensures Extends(u, v)
    ensures Coherent(u, w) ==> Coherent(v, w)
    ensures var c := GetConnection(u, w);
      && (c.result.Err? ==> v == c.utils)
      && (c.result.Ok? ==> v == ChainAfterConnection(c.utils, w) && Extends(c.utils, v) && v.store.Some?)
  {
    var c := GetConnection(u, w);
    if c.result.Err? then c.utils
    else
      var v := ChainAfterConnection(c.utils, w);
      ExtendsTransitive(u, c.utils, v);
      v
  }

  /** The chain once the connection is open: the store, the bridge handle, then the rest. */
  function ChainAfterConnection(u: Utils, w: World): (v: Utils)
    ensures Extends(u, v)
    ensures Coherent(u, w) ==> Coherent(v, w)
    ensures v.store.Some?
    ensures var a := GetAdb(GetCredentialStore(u, w).utils, w);
      && (a.result.Err? ==> v == a.utils)
      && (a.result.Ok? ==> v == ChainAfterBridge(a.utils, w) && Extends(a.utils, v) && v.adb == Some(a.result.value))
  {
    var st := GetCredentialStore(u, w);
    var a := GetAdb(st.utils, w);
    ExtendsTransitive(u, st.utils, a.utils);
    if a.result.Err? then a.utils
    else
      var v := ChainAfterBridge(a.utils, w);
      ExtendsTransitive(u, a.utils, v);
      v
  }

  /** The chain once the bridge handle exists: the sync handle, then the manager. */
  function ChainAfterBridge(u: Utils, w: World): (v: Utils)
    ensures Extends(u, v)
    ensures Coherent(u, w) ==> Coherent(v, w)
    ensures var sy := GetSync(u, w);
      && (sy.result.Err? ==> v == sy.utils)
      && (sy.result.Ok? ==> Extends(sy.utils, v) && v.sync == Some(sy.result.value) && v.log == sy.utils.log)
  {
    var sy := GetSync(u, w);
    if sy.result.Err? then sy.utils
    else
      var m := GetManager(sy.utils, w);
      ExtendsTransitive(u, sy.utils, m.utils);
      m.utils
  }

  /** `init`: never fails; keeps whatever the chain acquired before a
      failure; then makes the (possibly new) credential store generate a key,
      exactly once. */
  function Init(u: Utils, w: World): (v: Utils)
    ensures Keeps(u.manager, v.manager) && Keeps(u.device, v.device)
    ensures Keeps(u.connection, v.connection) && Keeps(u.transport, v.transport)
    ensures Keeps(u.adb, v.adb) && Keeps(u.sync, v.sync)
    ensures v.store.Some? && Keeps(u.store, v.store)
    ensures var c := InitChain(u, w);
      && Keeps(c.manager, v.manager) && Keeps(c.device, v.device) && Keeps(c.connection, v.connection)
      && Keeps(c.store, v.store) && Keeps(c.transport, v.transport) && Keeps(c.adb, v.adb)
      && Keeps(c.sync, v.sync) && c.log < v.log
    ensures u.log < v.log && v.log[|v.log| - 1] == GenerateKey(v.store.value)
    ensures forall i :: |u.log| <= i < |v.log| - 1 ==> !v.log[i].GenerateKey?
    ensures Coherent(u, w) ==> Coherent(v, w) && v.store == Some(CredentialStore(StoreName))
  {
    var chained := InitChain(u, w);
    var k := GetCredentialStore(chained, w);
    ExtendsTransitive(u, chained, k.utils);
    var v := k.utils.(log := k.utils.log + [GenerateKey(k.result.value)]);
    ExtendsThenEvent(u, k.utils, GenerateKey(k.result.value));
    v
  }

  /** Recording one more event after a state extension keeps the fields and
      leaves that event last, with no key generation before it. */
  lemma ExtendsThenEvent(u: Utils, k: Utils, e: Event)
    requires Extends(u, k)
    ensures var v := k.(log := k.log + [e]);
      && u.log < v.log && v.log[|v.log| - 1] == e
      && (forall i :: |u.log| <= i < |v.log| - 1 ==> !v.log[i].GenerateKey?)
  {
    var v := k.(log := k.log + [e]);
    forall i | |u.log| <= i < |v.log| - 1
      ensures !v.log[i].GenerateKey?
    {
      assert v.log[i] == k.log[i];
    }
  }

  /** A second call of any getter after a successful first one returns the
      same value and acquires nothing. */
  lemma GettersIdempotent(u: Utils, w: World)
    ensures GetManager(GetManager(u, w).utils, w) == GetManager(u, w)
    ensures var g := GetDevice(u, w); g.result.Ok? && g.result.value.Some? ==> GetDevice(g.utils, w) == g
    ensures var g := GetConnection(u, w); g.result.Ok? ==> GetConnection(g.utils, w) == g
    ensures var g := GetCredentialStore(u, w); GetCredentialStore(g.utils, w) == g
    ensures var g := GetAdbTransport(u, w); g.result.Ok? ==> GetAdbTransport(g.utils, w) == g
    ensures var g := GetAdb(u, w); g.result.Ok? ==> GetAdb(g.utils, w) == g
    ensures var g := GetSync(u, w); g.result.Ok? ==> GetSync(g.utils, w) == g
  {
  }

  /** A failed `connect()` is remembered: the next call fails the same way
      without connecting again. */
  lemma ConnectFailureSticks(u: Utils, w: World, d: Device)
    requires u.connection.None? && GetDevice(u, w).result == Ok(Some(d)) && w.connect(d).Err?
    ensures var g := GetConnection(u, w);
      && g.result.Err? && g.utils.connection == Some(w.connect(d))
      && GetConnection(g.utils, w) == g
  {
  }

  /** A prompt answered with no device is not remembered: asking again
      prompts again. */
  lemma NoDevicePromptsAgain(u: Utils, w: World)
    requires u.device.None? && w.browser.Some? && w.request == NoneChosen
    ensures var g := GetDevice(u, w);
      var m := GetManager(u, w).utils.manager.value;
      && g.result == Ok(None) && g.utils.device.None?
      && GetDevice(g.utils, w).utils.log == u.log + [RequestDevice(m), RequestDevice(m)]
  {
  }

  /** After a successful `getAdbTransport`, the device, its connection, the
      store and the transport are all cached, and the transport was
      authenticated with the serial of that same cached device over the
      connection opened on it. */
  lemma TransportUsesCachedDevice(u: Utils, w: World)
    requires Coherent(u, w)
    ensures var g := GetAdbTransport(u, w);
      g.result.Ok? ==>
        var v := g.utils;
        && v.device.Some? && v.connection.Some? && v.store.Some? && v.transport == Some(g.result.value)
        && v.connection.value == w.connect(v.device.value)
        && v.store.value == CredentialStore(StoreName)
        && w.authenticate(v.device.value.serial, v.connection.value.value, v.store.value) == g.result
  {
  }

  /** When every library call succeeds, `init` on a fresh instance acquires
      the whole chain, each resource once, and then generates the key. */
  lemma InitAcquiresAll(w: World, m: Manager, d: Device, c: Connection, t: Transport, s: SyncHandle)
    requires w.browser == Some(m) && w.request == Chosen(d)
    requires w.connect(d) == Ok(c)
    requires w.authenticate(d.serial, c, CredentialStore(StoreName)) == Ok(t)
    requires w.openSync(Adb(t)) == Ok(s)
    ensures Init(Fresh, w) == Utils(Some(m), Some(d), Some(Ok(c)), Some(CredentialStore(StoreName)),
                                    Some(t), Some(Adb(t)), Some(s),
                                    [RequestDevice(m), Connect(d), CreateStore(StoreName),
                                     Authenticate(d.serial, c, CredentialStore(StoreName)),
                                     CreateAdb(t), OpenSync(Adb(t)), GenerateKey(CredentialStore(StoreName))])
  {
  }

  /** From any coherent instance, in a world where every library call
      succeeds, `init` ends with the whole chain acquired: exactly the
      answers the world gives for the chosen device. */
  lemma InitCompletes(u: Utils, w: World, d: Device, c: Connection, t: Transport, s: SyncHandle)
    requires Coherent(u, w)
    requires w.browser.Some? && w.request == Chosen(d)
    requires w.connect(d) == Ok(c)
    requires w.authenticate(d.serial, c, CredentialStore(StoreName)) == Ok(t)
    requires w.openSync(Adb(t)) == Ok(s)
    ensures var v := Init(u, w);
      && v.manager == w.browser && v.device == Some(d) && v.connection == Some(Ok(c))
      && v.store == Some(CredentialStore(StoreName)) && v.transport == Some(t)
      && v.adb == Some(Adb(t)) && v.sync == Some(s)
  {
  }

  /** Once everything is acquired, `init` again acquires nothing and only
      generates another key. */
  lemma InitAgainOnlyGeneratesKey(v: Utils, w: World)
    requires v.manager.Some? && v.device.Some? && v.connection.Some? && v.connection.value.Ok?
    requires v.store.Some? && v.adb.Some? && v.sync.Some?
    ensures Init(v, w) == v.(log := v.log + [GenerateKey(v.store.value)])
  {
  }

  /** When the operator's prompt fails, `init` still completes: only the
      manager, the store and the key generation happen. */
  lemma InitSurvivesFailedPrompt(w: World, m: Manager)
    requires w.browser == Some(m) && w.request == PromptFails
    ensures Init(Fresh, w) == Fresh.(manager := Some(m), store := Some(CredentialStore(StoreName)),
                                     log := [RequestDevice(m), CreateStore(StoreName), GenerateKey(CredentialStore(StoreName))])
  {
  }

  /** `readFile` on the session: obtain the sync handle, read the stream,
      and concatenate its chunks. */
  function ReadFile(u: Utils, w: World, path: string): (g: Got<seq<bv8>>)
    ensures g.result.Ok? ==> g.utils.sync.Some? && w.read(g.utils.sync.value, path).Ok?
    ensures g.result.Ok? ==> g.result.value == Chunks.Flatten(w.read(g.utils.sync.value, path).value)
    ensures g.result.Ok? ==> |g.result.value| == Chunks.TotalLength(w.read(g.utils.sync.value, path).value)
    ensures GetSync(u, w).result.Err? ==> g.result.Err?
    ensures GetSync(u, w).result.Ok? ==> (g.result.Ok? <==> w.read(GetSync(u, w).result.value, path).Ok?)
    ensures Extends(u, g.utils)
  {
    var s := GetSync(u, w);
    if s.result.Err? then Got(Err, s.utils)
    else
      match w.read(s.result.value, path)
      case Err => Got(Err, s.utils)
      case Ok(chunks) =>
        Chunks.FlattenLength(chunks);
        Got(Ok(Chunks.Flatten(chunks)), s.utils)
  }

  /** `runCommand` on the session: obtain the bridge handle, spawn the
      command and concatenate its decoded output. */
  function RunCommand(u: Utils, w: World, command: string): (g: Got<string>)
    ensures g.result.Ok? ==> g.utils.adb.Some? && w.spawn(g.utils.adb.value, command).Ok?
    ensures g.result.Ok? ==> g.result.value == Chunks.Flatten(w.spawn(g.utils.adb.value, command).value)
    ensures g.result.Ok? ==> |g.result.value| == Chunks.TotalLength(w.spawn(g.utils.adb.value, command).value)
    ensures GetAdb(u, w).result.Err? ==> g.result.Err?
    ensures GetAdb(u, w).result.Ok? ==> (g.result.Ok? <==> w.spawn(GetAdb(u, w).result.value, command).Ok?)
    ensures Extends(u, g.utils)
  {
    var a := GetAdb(u, w);
    if a.result.Err? then Got(Err, a.utils)
    else
      match w.spawn(a.result.value, command)
      case Err => Got(Err, a.utils)
      case Ok(chunks) =>
        Chunks.FlattenLength(chunks);
        Got(Ok(Chunks.Flatten(chunks)), a.utils)
  }
}

=== FILE: text.dfy ===
/** The few JavaScript string primitives the device-output parsers rely on:
    the white-space class shared by the regular expression `\s` and
    `String.prototype.trim`, `indexOf`/`includes`, `replace` of the first
    occurrence of a plain pattern by a replacement without `$`, `trim`, and
    the truthiness of a string that may be `undefined`. */
module Text {
  import opened Wrappers

  /** `if (s)` for a string that may be `undefined`: present and non-empty. */
  predicate Truthy(s: Option<string>) {
    s.Some? && s.value != ""
  }

  /** ECMAScript WhiteSpace and LineTerminator code points: what `\s` matches
      and what `trim` strips. */
  predicate IsSpace(c: char) {
    || c == '\t' || c == '\n' || c == '\U{B}' || c == '\U{C}' || c == '\r'
    || c == ' ' || c == '\U{A0}' || c == '\U{1680}'
    || ('\U{2000}' <= c <= '\U{200A}')
    || c == '\U{2028}' || c == '\U{2029}' || c == '\U{202F}' || c == '\U{205F}'
    || c == '\U{3000}' || c == '\U{FEFF}'
  }

  predicate AllSpace(s: string) {
    forall i :: 0 <= i < |s| ==> IsSpace(s[i])
  }

  predicate NoSpace(s: string) {
    forall i :: 0 <= i < |s| ==> !IsSpace(s[i])
  }

  /** A string `trim` leaves alone: empty, or non-space at both ends. */
  predicate Trimmed(s: string) {
    |s| == 0 || (!IsSpace(s[0]) && !IsSpace(s[|s| - 1]))
  }

  predicate OccursAt(s: string, pat: string, k: nat) {
    k + |pat| <= |s| && s[k..k + |pat|] == pat
  }

  /** First occurrence of `pat` in `s` at or after `from`. */
  function IndexOfFrom(s: string, pat: string, from: nat): (r: Option<nat>)
    requires from <= |s|
    ensures r.Some? ==> from <= r.value && OccursAt(s, pat, r.value)
    ensures r.Some? ==> forall j :: from <= j < r.value ==> !OccursAt(s, pat, j)
    ensures r.None? ==> forall j :: from <= j <= |s| ==> !OccursAt(s, pat, j)
    decreases |s| - from
  {
    if OccursAt(s, pat, from) then Some(from)
    else if from == |s| then None
    else IndexOfFrom(s, pat, from + 1)
  }

  /** `s.indexOf(pat)`, with -1 as `None`. */
  function IndexOf(s: string, pat: string): (r: Option<nat>)
    ensures r.Some? ==> OccursAt(s, pat, r.value) && forall j :: 0 <= j < r.value ==> !OccursAt(s, pat, j)
    ensures r.None? <==> forall j :: 0 <= j <= |s| ==> !OccursAt(s, pat, j)
  {
    IndexOfFrom(s, pat, 0)
  }

  /** `s.includes(pat)`. */
  predicate Includes(s: string, pat: string) {
    IndexOf(s, pat).Some?
  }

  /** `s.replace(pat, repl)` with a string pattern: only the first occurrence
      is replaced. A replacement holding `$` would have its `$&`, `$$`, `` $` ``
      and `$'` patterns expanded, which this model does not do, so such
      replacements are excluded. */
  function ReplaceFirst(s: string, pat: string, repl: string): (r: string)
    requires '$' !in repl
    ensures !Includes(s, pat) ==> r == s
    ensures Includes(s, pat) ==> |r| == |s| - |pat| + |repl|
    ensures Includes(s, pat) ==>
      var k := IndexOf(s, pat).value;
      r[..k] == s[..k] && r[k..k + |repl|] == repl && r[k + |repl|..] == s[k + |pat|..]
  {
    match IndexOf(s, pat)
    case None => s
    case Some(k) => s[..k] + repl + s[k + |pat|..]
  }

  function TrimStart(s: string): (r: string)
    ensures |r| <= |s| && r == s[|s| - |r|..]
    ensures AllSpace(s[..|s| - |r|])
    ensures |r| == 0 || !IsSpace(r[0])
  {
    if |s| > 0 && IsSpace(s[0]) then TrimStart(s[1..]) else s
  }

  function TrimEnd(s: string): (r: string)
    ensures |r| <= |s| && r == s[..|r|]
    ensures AllSpace(s[|r|..])
    ensures |r| == 0 || !IsSpace(r[|r| - 1])
  {
    if |s| > 0 && IsSpace(s[|s| - 1]) then
      var r := TrimEnd(s[..|s| - 1]);
      assert s[|r|..] == s[..|s| - 1][|r|..] + [s[|s| - 1]];
      r
    else s
  }

  /** `r` is a slice of `s` with nothing but white space around it. */
  ghost predicate SliceBetweenSpace(r: string, s: string) {
    exists a, b :: 0 <= a <= b <= |s| && r == s[a..b] && AllSpace(s[..a]) && AllSpace(s[b..])
  }

  /** `s.trim()`: the slice of `s` left after dropping white space at both ends. */
  function Trim(s: string): (r: string)
    ensures Trimmed(r) && SliceBetweenSpace(r, s)
  {
    var t := TrimStart(s);
    var r := TrimEnd(t);
    TrimSlice(s, t, r);
    TrimmedPrefix(t, r);
    r
  }

  /** A prefix of text that starts with no blank, ending in no blank, is trimmed. */
  lemma TrimmedPrefix(t: string, r: string)
    requires |t| == 0 || !IsSpace(t[0])
    requires |r| <= |t| && r == t[..|r|]
    requires |r| == 0 || !IsSpace(r[|r| - 1])
    ensures Trimmed(r)
  {
    assert |r| > 0 ==> r[0] == t[0];
  }

  lemma TrimSlice(s: string, t: string, r: string)
    requires |t| <= |s| && t == s[|s| - |t|..] && AllSpace(s[..|s| - |t|])
    requires |r| <= |t| && r == t[..|r|] && AllSpace(t[|r|..])
    ensures SliceBetweenSpace(r, s)
  {
    var a := |s| - |t|;
    var b := a + |r|;
    assert r == s[a..b];
    assert s[b..] == t[|r|..];
  }

  lemma {:induction false} TrimStartOfPadded(pre: string, x: string)
    requires AllSpace(pre)
    requires |x| == 0 || !IsSpace(x[0])
    ensures TrimStart(pre + x) == x
    decreases |pre|
  {
    if |pre| > 0 {
      assert (pre + x)[1..] == pre[1..] + x;
      TrimStartOfPadded(pre[1..], x);
    } else {
      assert pre + x == x;
    }
  }

  lemma {:induction false} TrimEndOfPadded(x: string, post: string)
    requires AllSpace(post)
    requires |x| == 0 || !IsSpace(x[|x| - 1])
    ensures TrimEnd(x + post) == x
    decreases |post|
  {
    if |post| > 0 {
      assert (x + post)[..|x + post| - 1] == x + post[..|post| - 1];
      TrimEndOfPadded(x, post[..|post| - 1]);
    } else {
      assert x + post == x;
    }
  }

  /** Trimming undoes white-space padding of an already trimmed string. */
  lemma TrimOfPadded(pre: string, s: string, post: string)
    requires AllSpace(pre) && AllSpace(post) && Trimmed(s)
    ensures Trim(pre + s + post) == s
  {
    if |s| == 0 {
      assert pre + s + post == pre + post;
      assert AllSpace(post + []);
      TrimStartOfPadded(pre + post, []);
      assert pre + post + [] == pre + post;
    } else {
      assert pre + s + post == pre + (s + post);
      TrimStartOfPadded(pre, s + post);
      TrimEndOfPadded(s, post);
    }
  }
}

=== FILE: wrappers.dfy ===
/** Wrappers shared by the whole model.
    `Option` stands for a JavaScript value that may be `undefined`;
    `Result` stands for a promise that either fulfils with a value or rejects. */
module Wrappers {

  datatype Option<+T> = None | Some(value: T)

  datatype Result<+T> = Ok(value: T) | Err
}
